=== FILE: README.md ===
# cf-ghproxy-worker in Dafny

A model of the request path of a Cloudflare Worker that mirrors GitHub. The
worker resolves an inbound path to one of four GitHub hosts. It chooses a
cache policy from the path's shape. It looks the request up in the edge cache
under a key versioned by the UTC date and the client's encoding. On a miss it
fetches upstream with linear-backoff retries. A GET without Range that
fetched a 200 is stored under a key versioned by the upstream ETag when the
policy asks for one and the response carries a non-empty ETag, and under the
lookup key otherwise.

Each module follows one function of `worker.js`:

- `Text` — strings: substring search, `split` and `join` on one separator, and an `Option` type.
- `Resolver` — `parseGitHubPath`. The WHATWG URL parser is a parameter (`UrlParser`). `None` stands for the parser throwing.
- `Strategy` — `getCacheStrategy`. The three regular expressions are written as predicates over slash-delimited segments.
- `ETag` — `extractETag`.
- `CacheKeys` — `getCacheVersion` and `getOptimalCacheKey`. The date is a parameter. A URL is its base plus a map of query parameters.
- `Retry` — `fetchWithRetry`. The upstream is a function from the attempt index to its outcome. The sleeps are recorded as a list of delays.
- `Compression` — `shouldCompress`. The handler never calls it.
- `Handler` — the default `fetch` handler. The cache, the upstream, the URL parser and the two clock readings are an `Env`. The handler returns a `Decision` that says:
  - what it answers;
  - which cache key it reads;
  - what it sends upstream, and how many attempts it makes;
  - which key it writes.

## Model

| member | source | states |
|---|---|---|
| Resolver.LeadingSlashes | worker.js:131 | The `^\/+` alternative: the length of the run of slashes that starts the string, which is followed by a non-slash or by the end. |
| Resolver.TrailingSlashes | worker.js:131 | The `\/+$` alternative: the length of the run of slashes that ends the string, which is preceded by a non-slash or by the start. |
| Resolver.CleanPath | worker.js:131 | The result neither starts nor ends with `/`, and it occurs in the input between two runs of slashes. |
| Resolver.CleanPathOfFramed | worker.js:131 | For a core that neither starts nor ends with a slash, the runs of slashes around it are exactly what is trimmed. |
| Resolver.ResolveSegments | worker.js:160-180 | Forms 2 and 3: when the first piece is a mirrored host, it becomes the host and the rest (or `/`) the path. Otherwise the host is `github.com` and the path is `/` plus the whole cleaned path. The full URL is `https://` + host + path. |
| Resolver.ParseGitHubPath | worker.js:129-181 | No target exactly when the cleaned path is empty, or when it is an absolute URL (one that parses) whose host is not mirrored. Every target's host is mirrored. In URL form the target takes the parsed hostname, the path `pathname + search + hash` and the href; otherwise the path starts with `/`. |
| Resolver.HostPrefixedPath | worker.js:162-170 | For any mirrored HOST and any P that neither starts nor ends with `/`, `/HOST/P` resolves to host HOST, path `/P`, URL `https://HOST/P`. |
| Resolver.HostAlonePath | worker.js:162-170 | `/HOST/` resolves to host HOST with path `/`. |
| Resolver.BarePath | worker.js:171-174 | A non-empty P that neither starts nor ends with `/`, whose first piece is not a mirrored host, and that is not an absolute URL the parser accepts: `/P` goes to `github.com` with path `/P`. |
| Resolver.DefaultHostIsImplicit | worker.js:160-180 | For a non-empty P that neither starts nor ends with `/`, whose first piece is not a mirrored host, and that is not in URL form, `/github.com/P` and `/P` resolve to the same target. |
| Strategy.CacheStrategy | worker.js:75-113 | Dynamic exactly when a volatile marker is present. Versioned exactly when no marker is present and the path has a version segment, a `tag`/`tags` segment, or a release-download number. Otherwise default. ETag validation is on unless versioned, and the browser TTL is below the edge TTL. |
| Strategy.DynamicInAnyContext | worker.js:78-88 | A dynamic path stays dynamic inside any longer path. |
| Strategy.NeverDefaultInContext | worker.js:78-103 | A dynamic or versioned path never becomes default when extended on either side. |
| Strategy.VolatileMarkerWins | worker.js:76-96 | A volatile marker beats every versioned pattern. |
| Strategy.VersionSegmentMeansVersioned | worker.js:94-102 | A `/v1.2/`-shaped segment makes a marker-free path versioned. |
| Strategy.PatchVersionSegment | worker.js:92-94 | `/v1.2.3/` has the version shape. |
| ETag.RemoveQuotesCount | worker.js:65 | Quote removal drops exactly the quotes. |
| ETag.Normalize | worker.js:65 | No quote survives. A weak validator loses its `W/` prefix as well. |
| ETag.ExtractETag | worker.js:59-66 | Nothing exactly when the header is missing or empty. Otherwise the result is a quote-free prefix of the normalised value, of length min(32, its length). |
| ETag.ExtractIsIdempotent | worker.js:59-66 | Extracting again from a non-empty extracted validator gives it back unchanged. |
| ETag.WeakValidatorIsCut | worker.js:63-65 | `W/"v"` with a quote-free `v` of at least 32 characters gives the first 32 characters of `v`. |
| ETag.StrongValidatorIsUnwrapped | worker.js:63-65 | `"v"` with a quote-free `v` of at most 32 characters gives `v`. |
| CacheKeys.DecimalRoundTrip | worker.js:43-45 | The decimal rendering of a number reads back as that number. |
| CacheKeys.PaddedRoundTrip | worker.js:44-45 | A number below 100 (a month or day) padded to two digits is two digits and reads back. |
| CacheKeys.CacheVersion | worker.js:41-47 | Never empty. For a four-digit year the version is eight digits, and it starts with the year. |
| CacheKeys.VersionRoundTrip | worker.js:41-47 | For a date with a four-digit year, the version string reads back to its date. |
| CacheKeys.DistinctDatesDistinctVersions | worker.js:36-47 | Two different dates with four-digit years never share a version. |
| CacheKeys.EncodingTag | worker.js:270-276 | `br` whenever `br` occurs; `gzip` when only `gzip` does; nothing otherwise. |
| CacheKeys.VersionTag | worker.js:266 | The tag is never empty: the supplied version when it is a non-empty string, otherwise the date, which for a four-digit year is eight digits. |
| CacheKeys.OptimalCacheKey | worker.js:262-279 | Base unchanged. `__v` is the version tag. `__enc` is the encoding tag when there is one, and the URL's own `__enc` when there is not. Every other parameter is kept. |
| CacheKeys.KeyIdentity | worker.js:262-279 | For a URL without its own `__enc`, two keys are equal exactly when their version tags and encoding tags are. |
| CacheKeys.KeysRollOverDaily | worker.js:266-267 | Without a supplied version, keys built on different dates with four-digit years differ. |
| CacheKeys.SuppliedVersionIgnoresDate | worker.js:266-267 | With a supplied non-empty version, the key does not depend on the day. |
| CacheKeys.ClientEncodingParamSurvives | worker.js:263-276 | A client that accepts neither `br` nor `gzip` but sends `__enc=br` gets the key of a `br` client. |
| Retry.AttemptFrom | worker.js:196-228 | The loop from attempt i. It stops at the first final outcome or at the last allowed attempt. It waits `500*(k+1)` ms after each failed attempt k, and the last attempt settles the run. |
| Retry.FetchWithRetry | worker.js:195-229 | At most `retries+1` attempts. No attempt before the last was 2xx or 4xx. The last was, or the budget ran out. That last outcome is returned or rethrown. A negative budget makes no attempt and yields nothing. |
| Retry.FirstFinalSettles | worker.js:209-211 | The first 2xx or 4xx within the budget ends the run with that response. |
| Retry.BudgetExhausted | worker.js:214-226 | Without a final outcome every attempt is made, and the last one is returned or rethrown. |
| Retry.LinearBackoffTotal | worker.js:213-225 | After n failed attempts the waits total `500*n*(n+1)/2` ms. |
| Retry.ConfiguredWaitBound | worker.js:11-12 | With two retries the backoff totals at most 1.5 s. |
| Retry.RecoversAfterTwoFailures | worker.js:196-219 | 503, 503, 200 gives three attempts, waits of 500 and 1000 ms, and the 200. |
| Retry.NotModifiedIsRetried | worker.js:209-217 | A 304 is retried. |
| Compression.AnyContained | worker.js:250 | True exactly when some listed type occurs in the value. |
| Compression.ShouldCompress | worker.js:238-251 | True exactly when a Content-Type is present and contains a compressible type. |
| Compression.ParametersKeepCompressible | worker.js:238-251 | Appending parameters keeps a compressible type compressible. |
| Compression.TextIsCompressible | worker.js:241-242 | Every `text/` type is compressible. |
| Handler.ForwardHeaders | worker.js:365-377 | Exactly the whitelisted headers with a non-empty value are forwarded, with their values. |
| Handler.CredentialsStayBehind | worker.js:366-374 | `authorization` and `cookie` are never forwarded. |
| Handler.ETagVersion | worker.js:415-422 | An ETag is used exactly when the policy asks for one and the extracted value is a non-empty string. A used ETag is a non-empty, quote-free prefix of the normalised header, at most 32 characters long. |
| Handler.MirrorVersion | worker.js:413-423 | For the day the clock reads: without ETag validation the version is that day's date; with it and a non-empty extracted ETag, it is that ETag. It is never empty, and differs from the day's date only when the policy uses ETags and the response carries that ETag. |
| Handler.Handle | worker.js:282-310 | A bad path gives 400 before any method check. Then OPTIONS gives 204, and any method but GET or HEAD gives 405. Only GET and HEAD on a resolved path are served. |
| Handler.Serve | worker.js:312-469 | The cache is read exactly for a GET without Range, under the date-versioned key. A present entry answers with its status and the path's strategy, and nothing goes upstream. On a miss the request goes to the target URL plus the query, with the method and the forwarded headers. A returned response passes through with its status, the upstream URL as target, and the mirror version taken from the second clock reading; a thrown error leaves the handler. A write happens exactly for a GET without Range that fetched a 200. It goes under the lookup key, rebuilt with the response's ETag when the policy asks for one and the response carries a non-empty ETag. |
| Handler.FinalKey | worker.js:412-423 | The storage key is the key builder's output for the ETag, if one is used, on the lookup date. With an ETag it carries the mirror version whatever day the second clock reading gives; without one it is the lookup key. |
| Handler.WriteKeyIsReadKeyIffDateVersioned | worker.js:412-423 | A stored response lands under the lookup key exactly when no ETag is used or the ETag spells the lookup date. When both clock readings fall on the same day, that is exactly when the mirror version is the date. |
| Handler.WriteKeyDiffersOnlyForETag | worker.js:412-423 | The stored key differs from the lookup key only when the policy uses ETags and the returned response's ETag was extracted; that ETag is the mirror version. |
| Handler.LookupHit | worker.js:347-361 | A full GET whose lookup key is present is answered from the cache. |
| Handler.WriteThenHit | worker.js:344-466 | After a write without an ETag, the same request with the same lookup date is a cache hit. |
| Handler.ReadKeyVersion | worker.js:320-322 | Every cache read uses the lookup date as `__v`. |
| Handler.WriteKeyVersion | worker.js:412-423 | A write's `__v` is the ETag if one is used, else the first clock reading's date; the mirror version is the ETag, else the second reading's date. They agree when an ETag is used or both readings fall on the same day. |
| Handler.MidnightWriteKeepsLookupDate | worker.js:321-423 | Across UTC midnight, a write without an ETag goes under the lookup key dated the first day, while the mirror version is the second day, so the two differ. |
| Handler.ETagEntriesAreNeverRead | worker.js:412-466 | An entry filed under an ETag that is not eight digits is never read back, whatever the lookup date. |
| Handler.RangeRequestsBypassCache | worker.js:347-350 | A Range request neither reads nor writes the cache. |
| Handler.HeadIsNeverCached | worker.js:347-350 | A HEAD request neither reads nor writes the cache. |
| Handler.ClientErrorIsNotRetried | worker.js:208-211 | When the first attempt returns a 4xx, a request that goes upstream makes one attempt, passes the 4xx through and stores nothing. |

## Observations

- `fetchWithRetry` returns at once only on a 2xx or a 4xx: the comment at worker.js:208 names those two cases, and the condition at worker.js:209 tests exactly them. Every other status falls through to the retry at worker.js:213-217, which the comment there describes as "server errors (5xx) or other failures". That includes 304 and every other 3xx (`Retry.NotModifiedIsRetried`). After the last attempt the last response is returned as it is (worker.js:219).
- On a miss the worker reads the clock twice: once for the lookup key (worker.js:321) and once for `X-Mirror-Version` (worker.js:414), after the fetch has answered. When a response without a usable ETag arrives after UTC midnight, it is stored under the lookup key, which carries the first day's date, while its mirror version is the second day's date (`Handler.MidnightWriteKeepsLookupDate`).
- The cache is always read under the date-versioned key. A 200 stored for a GET without Range, from a path whose policy uses ETags and whose response carries a non-empty ETag, goes under the ETag-versioned key. Such an entry is never served from the edge cache (`Handler.ETagEntriesAreNeverRead`), unless the ETag is an eight-digit string equal to the lookup date: then the two keys coincide (`Handler.WriteKeyIsReadKeyIffDateVersioned`).
- `getOptimalCacheKey` keeps a `__enc` parameter the client put in the URL when the client accepts neither encoding. Such a request shares its key with a `br` client's request (`CacheKeys.ClientEncodingParamSurvives`).
- `extractETag` can yield the empty string, for example for the header `""`. The handler treats that as no ETag.

## Left out

- Network I/O, response bodies and the streaming of `cache.put` through `ctx.waitUntil`: the handler returns the key it would write instead.
- Early Hints (worker.js:327-342): a fire-and-forget HEAD request whose outcome is discarded.
- The `cf` fetch options (TTL by status, Polish, Mirage, minification, DNS override): platform directives with no effect on the handler's decisions.
- Response-header rewriting (Cache-Control, Vary, CORS, security, timing and `X-*` debug headers): formatting only. The mirror version, strategy and target are carried in `Reply.FromUpstream`.
- The per-attempt 30-second timeout and the abort controller: a timeout appears as a `NetworkError` outcome of that attempt.
- `FALLBACK_MIRRORS` and `ENABLE_COMPRESSION`: declared in worker.js but never used.
- Resolver.ParseGitHubPath: the WHATWG URL parser is a parameter, so what it does to the URL (normalisation, percent-encoding) is not modelled.
- CacheKeys.OptimalCacheKey: query parameters are a map, so their order, duplicates and the serialisation of the key URL are not modelled.
- CacheKeys.CacheVersion: years are natural numbers; negative and five-digit years, which JavaScript `Date` allows, are outside the eight-digit guarantee.
- Handler.Serve: when `fetchWithRetry` yields nothing (a negative budget, which the configured two retries never give), the code would throw on reading its headers; the model answers `Failed`.

=== FILE: cache_keys.dfy ===
/** The cache key builder: the date-based version (worker.js
    `getCacheVersion`) and the versioned, encoding-aware cache key
    (worker.js `getOptimalCacheKey`). */
module CacheKeys {
  import opened Text

  // ---------------------------------------------------------------------------
  // Date-based version
  // ---------------------------------------------------------------------------

  /** A UTC calendar date, as `getUTCFullYear()`, `getUTCMonth() + 1` and
      `getUTCDate()` report it. */
  datatype Date = Date(year: nat, month: nat, day: nat)

  /** A date with a four-digit year. */
  predicate ValidDate(d: Date) {
    1000 <= d.year <= 9999 && 1 <= d.month <= 12 && 1 <= d.day <= 31
  }

  predicate AllDigits(s: string) {
    forall k | 0 <= k < |s| :: IsDigit(s[k])
  }

  function DigitChar(n: nat): (c: char)
    requires n < 10
    ensures IsDigit(c)
  {
    (48 + n) as char
  }

  function DigitValue(c: char): nat
    requires IsDigit(c)
  {
    c as int - 48
  }

  /** `String(n)` for a natural number: its decimal digits, no leading zero. */
  function Decimal(n: nat): (s: string)
    ensures |s| >= 1 && AllDigits(s)
    decreases n
  {
    if n < 10 then [DigitChar(n)] else Decimal(n / 10) + [DigitChar(n % 10)]
  }

  /** The number a string of decimal digits denotes. */
  function ParseDecimal(s: string): nat
    requires AllDigits(s)
    decreases |s|
  {
    if |s| == 0 then 0 else ParseDecimal(s[..|s| - 1]) * 10 + DigitValue(s[|s| - 1])
  }

  /** Reading back the decimal rendering gives the number again. */
  lemma {:induction false} DecimalRoundTrip(n: nat)
    ensures ParseDecimal(Decimal(n)) == n
    decreases n
  {
    if n >= 10 {
      var s := Decimal(n);
      assert s[..|s| - 1] == Decimal(n / 10);
      DecimalRoundTrip(n / 10);
    }
  }

  /** Numbers from 10 to 99 take two digits, from 1000 to 9999 four. */
  lemma DecimalLength(n: nat)
    ensures n < 10 ==> |Decimal(n)| == 1
    ensures 10 <= n < 100 ==> |Decimal(n)| == 2
    ensures 100 <= n < 1000 ==> |Decimal(n)| == 3
    ensures 1000 <= n < 10000 ==> |Decimal(n)| == 4
    decreases n
  {
    if n >= 10 {
      DecimalLength(n / 10);
    }
  }

  /** `padStart(2, '0')`. */
  function PadTwo(s: string): (r: string)
    ensures |r| == if |s| >= 2 then |s| else 2
  {
    if |s| >= 2 then s else seq(2 - |s|, _ => '0') + s
  }

  /** A month or day is written in exactly two digits and read back. */
  lemma PaddedRoundTrip(n: nat)
    requires n < 100
    ensures |PadTwo(Decimal(n))| == 2 && AllDigits(PadTwo(Decimal(n)))
    ensures ParseDecimal(PadTwo(Decimal(n))) == n
  {
    DecimalLength(n);
    DecimalRoundTrip(n);
    var p := PadTwo(Decimal(n));
    if n < 10 {
      assert p == ['0', DigitChar(n)];
      assert p[..1] == ['0'];
      assert ParseDecimal(['0']) == 0 by {
        assert ['0'][..0] == [];
      }
    }
  }

  /** `getCacheVersion`: the date as `YYYYMMDD`; for a four-digit year,
      eight digits. */
  function CacheVersion(d: Date): (v: string)
    ensures ValidDate(d) ==> |v| == 8 && AllDigits(v)
    ensures StartsWith(v, Decimal(d.year))
    ensures v != ""
  {
    var y, m, dd := Decimal(d.year), PadTwo(Decimal(d.month)), PadTwo(Decimal(d.day));
    VersionPieces(d);
    assert (y + m + dd)[..|y|] == y;
    y + m + dd
  }

  /** For a valid date the year takes four digits, month and day two each. */
  lemma VersionPieces(d: Date)
    ensures ValidDate(d) ==> |Decimal(d.year)| == 4
    ensures ValidDate(d) ==> |PadTwo(Decimal(d.month))| == 2 && AllDigits(PadTwo(Decimal(d.month)))
    ensures ValidDate(d) ==> |PadTwo(Decimal(d.day))| == 2 && AllDigits(PadTwo(Decimal(d.day)))
  {
    if ValidDate(d) {
      DecimalLength(d.year);
      PaddedRoundTrip(d.month);
      PaddedRoundTrip(d.day);
    }
  }

  /** Reads a version string back into a date. */
  function ParseVersion(v: string): Date
    requires |v| == 8 && AllDigits(v)
  {
    Date(ParseDecimal(v[..4]), ParseDecimal(v[4..6]), ParseDecimal(v[6..]))
  }

  /** The version string of a date determines the date. */
  lemma VersionRoundTrip(d: Date)
    requires ValidDate(d)
    ensures ParseVersion(CacheVersion(d)) == d
  {
    var y, m, dd := Decimal(d.year), PadTwo(Decimal(d.month)), PadTwo(Decimal(d.day));
    DecimalLength(d.year);
    DecimalRoundTrip(d.year);
    PaddedRoundTrip(d.month);
    PaddedRoundTrip(d.day);
    var v := CacheVersion(d);
    assert v == y + m + dd;
    assert v[..4] == y;
    assert v[4..6] == m;
    assert v[6..] == dd;
  }

  /** Two different days never share a version: the date-based version rolls
      over at UTC midnight. */
  lemma DistinctDatesDistinctVersions(d1: Date, d2: Date)
    requires ValidDate(d1) && ValidDate(d2)
    requires d1 != d2
    ensures CacheVersion(d1) != CacheVersion(d2)
  {
    VersionRoundTrip(d1);
    VersionRoundTrip(d2);
  }

  // ---------------------------------------------------------------------------
  // Cache key
  // ---------------------------------------------------------------------------

  /** A URL as the key builder sees it: everything before the query, and the
      query parameters by name. */
  datatype Url = Url(base: string, params: map<string, string>)

  const VersionParam: string := "__v"
  const EncodingParam: string := "__enc"

  /** The encoding tag of an `Accept-Encoding` value: `br` preferred over
      `gzip`, none when neither is accepted. */
  function EncodingTag(acceptEncoding: string): (tag: Option<string>)
    ensures tag == Some("br") <==> Contains(acceptEncoding, "br")
    ensures tag == Some("gzip") <==> !Contains(acceptEncoding, "br") && Contains(acceptEncoding, "gzip")
    ensures tag.None? <==> !Contains(acceptEncoding, "br") && !Contains(acceptEncoding, "gzip")
  {
    if acceptEncoding == "" then None
    else if Contains(acceptEncoding, "br") then Some("br")
    else if Contains(acceptEncoding, "gzip") then Some("gzip")
    else None
  }

  /** `version || getCacheVersion()`: the supplied version unless it is
      missing or empty. The tag is never empty, and without a supplied
      version it is the eight-digit date. */
  function VersionTag(version: Option<string>, today: Date): (tag: string)
    ensures tag != ""
    ensures version.Some? && version.value != "" ==> tag == version.value
    ensures version.None? || version.value == "" ==> tag == CacheVersion(today)
    ensures ValidDate(today) && (version.None? || version.value == "") ==> |tag| == 8 && AllDigits(tag)
  {
    if version.Some? && version.value != "" then version.value else CacheVersion(today)
  }

  /** `getOptimalCacheKey`: the request URL with `__v` set to the version tag
      and, when the client accepts `br` or `gzip`, `__enc` set to the
      encoding tag; every other parameter is kept. */
  function OptimalCacheKey(url: Url, acceptEncoding: string, version: Option<string>, today: Date): (key: Url)
    ensures key.base == url.base
    ensures VersionParam in key.params && key.params[VersionParam] == VersionTag(version, today)
    ensures EncodingTag(acceptEncoding).Some? ==>
              EncodingParam in key.params && key.params[EncodingParam] == EncodingTag(acceptEncoding).value
    ensures EncodingTag(acceptEncoding).None? ==>
              (EncodingParam in key.params <==> EncodingParam in url.params) &&
              (EncodingParam in url.params ==> key.params[EncodingParam] == url.params[EncodingParam])
    ensures forall name | name != VersionParam && name != EncodingParam ::
              (name in key.params <==> name in url.params) &&
              (name in url.params ==> key.params[name] == url.params[name])
  {
    var withVersion := url.params[VersionParam := VersionTag(version, today)];
    var tag := EncodingTag(acceptEncoding);
    Url(url.base, if tag.Some? then withVersion[EncodingParam := tag.value] else withVersion)
  }

  /** The version enters the key only through its tag. */
  lemma SameTagSameKey(url: Url, acceptEncoding: string, v1: Option<string>, d1: Date, v2: Option<string>, d2: Date)
    requires VersionTag(v1, d1) == VersionTag(v2, d2)
    ensures OptimalCacheKey(url, acceptEncoding, v1, d1) == OptimalCacheKey(url, acceptEncoding, v2, d2)
  {
  }

  /** For a URL that carries no `__enc` of its own, two keys coincide exactly
      when their version tags and their encoding tags do. */
  lemma KeyIdentity(url: Url, ae1: string, v1: Option<string>, d1: Date,
                    ae2: string, v2: Option<string>, d2: Date)
    requires EncodingParam !in url.params
    ensures OptimalCacheKey(url, ae1, v1, d1) == OptimalCacheKey(url, ae2, v2, d2) <==>
              VersionTag(v1, d1) == VersionTag(v2, d2) && EncodingTag(ae1) == EncodingTag(ae2)
  {
    var k1, k2 := OptimalCacheKey(url, ae1, v1, d1), OptimalCacheKey(url, ae2, v2, d2);
    if VersionTag(v1, d1) == VersionTag(v2, d2) && EncodingTag(ae1) == EncodingTag(ae2) {
      assert k1.params.Keys == k2.params.Keys;
      assert forall name | name in k1.params :: k1.params[name] == k2.params[name];
    }
    if k1 == k2 {
      assert k1.params[VersionParam] == k2.params[VersionParam];
      if EncodingTag(ae1).Some? || EncodingTag(ae2).Some? {
        assert EncodingParam in k1.params;
      }
    }
  }

  /** Without a supplied version, keys built on different days differ. */
  lemma KeysRollOverDaily(url: Url, acceptEncoding: string, d1: Date, d2: Date)
    requires ValidDate(d1) && ValidDate(d2) && d1 != d2
    ensures OptimalCacheKey(url, acceptEncoding, None, d1) != OptimalCacheKey(url, acceptEncoding, None, d2)
  {
    DistinctDatesDistinctVersions(d1, d2);
    assert OptimalCacheKey(url, acceptEncoding, None, d1).params[VersionParam] == CacheVersion(d1);
  }

  /** With a supplied version, the key no longer depends on the day. */
  lemma SuppliedVersionIgnoresDate(url: Url, acceptEncoding: string, version: string, d1: Date, d2: Date)
    requires version != ""
    ensures OptimalCacheKey(url, acceptEncoding, Some(version), d1) ==
            OptimalCacheKey(url, acceptEncoding, Some(version), d2)
  {
  }

  /** A client that accepts neither `br` nor `gzip` but sends its own
      `__enc=br` gets the key of a client that accepts `br`. */
  lemma ClientEncodingParamSurvives(url: Url, acceptEncoding: string, version: Option<string>, today: Date)
    requires EncodingTag(acceptEncoding).None?
    requires EncodingParam in url.params && url.params[EncodingParam] == "br"
    ensures OptimalCacheKey(url, acceptEncoding, version, today) ==
            OptimalCacheKey(Url(url.base, url.params - {EncodingParam}), "br", version, today)
  {
    var k1 := OptimalCacheKey(url, acceptEncoding, version, today);
    var k2 := OptimalCacheKey(Url(url.base, url.params - {EncodingParam}), "br", version, today);
    assert OccursAt("br", "br", 0);
    assert k1.params.Keys == k2.params.Keys;
  }
}

=== FILE: compression.dfy ===
/** The content-type predicate (worker.js `shouldCompress`). The worker
    defines it but its request handler never calls it. */
module Compression {
  import opened Text

  /** Content types worth compressing, matched as substrings. */
  const CompressibleTypes: seq<string> :=
    ["text/", "application/javascript", "application/json", "application/xml",
     "application/x-yaml", "image/svg+xml"]

  /** `Array.prototype.some` of `contentType.includes(type)` over `types`. */
  function AnyContained(contentType: string, types: seq<string>): (r: bool)
    ensures r <==> exists t | t in types :: Contains(contentType, t)
  {
    if |types| == 0 then false
    else Contains(contentType, types[0]) || AnyContained(contentType, types[1..])
  }

  /** `shouldCompress`: true exactly when a Content-Type is present and one
      of the compressible types occurs in it. The empty value is rejected by
      the code before the search, which could not succeed on it anyway. */
  function ShouldCompress(contentType: Option<string>): (r: bool)
    ensures r <==> contentType.Some? && exists t | t in CompressibleTypes :: Contains(contentType.value, t)
  {
    match contentType
    case None => false
    case Some(ct) =>
      if ct == "" then
        assert forall t | t in CompressibleTypes :: |t| > 0;
        false
      else AnyContained(ct, CompressibleTypes)
  }

  /** Parameters after the media type (`; charset=utf-8`) keep a
      compressible type compressible. */
  lemma ParametersKeepCompressible(mediaType: string, parameters: string)
    requires ShouldCompress(Some(mediaType))
    ensures ShouldCompress(Some(mediaType + parameters))
  {
    var t :| t in CompressibleTypes && Contains(mediaType, t);
    ContainsInContext("", mediaType, parameters, t);
    assert "" + mediaType + parameters == mediaType + parameters;
  }

  /** Every `text/` type is compressible. */
  lemma TextIsCompressible(subtype: string)
    ensures ShouldCompress(Some("text/" + subtype))
  {
    var s := "text/" + subtype;
    assert s[0..5] == "text/";
    assert OccursAt(s, "text/", 0);
  }
}

=== FILE: etag.dfy ===
/** The ETag normaliser (worker.js `extractETag`): the upstream validator with
    its weak prefix and quotes removed, cut to 32 characters. */
module ETag {
  import opened Text

  /** The normalised validator is cut to this many characters. */
  const MaxLength: nat := 32

  /** The prefix of a weak validator, `W/"`. */
  const WeakPrefix: string := "W/\""

  function Min(a: nat, b: nat): nat {
    if a <= b then a else b
  }

  /** Every `"` dropped, every other character kept in order. */
  function RemoveQuotes(s: string): (r: string)
    ensures '"' !in r
    ensures |r| <= |s|
    decreases |s|
  {
    if |s| == 0 then ""
    else (if s[0] == '"' then "" else [s[0]]) + RemoveQuotes(s[1..])
  }

  /** Removing quotes from a concatenation removes them piecewise. */
  lemma {:induction false} RemoveQuotesAppend(a: string, b: string)
    ensures RemoveQuotes(a + b) == RemoveQuotes(a) + RemoveQuotes(b)
    decreases |a|
  {
    if |a| > 0 {
      assert (a + b)[1..] == a[1..] + b;
      RemoveQuotesAppend(a[1..], b);
    } else {
      assert a + b == b;
    }
  }

  /** A string without quotes is left as it is. */
  lemma {:induction false} RemoveQuotesNoop(s: string)
    requires '"' !in s
    ensures RemoveQuotes(s) == s
    decreases |s|
  {
    if |s| > 0 {
      RemoveQuotesNoop(s[1..]);
      assert [s[0]] + s[1..] == s;
    }
  }

  /** Exactly the quotes are removed: the length drops by their number. */
  lemma {:induction false} RemoveQuotesCount(s: string)
    ensures |RemoveQuotes(s)| == |s| - multiset(s)['"']
    decreases |s|
  {
    if |s| > 0 {
      RemoveQuotesCount(s[1..]);
      assert s == [s[0]] + s[1..];
      assert multiset(s) == multiset([s[0]]) + multiset(s[1..]);
    }
  }

  /** `etag.replace(/^W\/"|"/g, '')`: all quotes removed and, for a weak
      validator, the `W/` in front of its opening quote as well. */
  function Normalize(etag: string): (r: string)
    ensures '"' !in r
    ensures StartsWith(etag, WeakPrefix) ==> "W/" + r == RemoveQuotes(etag)
    ensures !StartsWith(etag, WeakPrefix) ==> r == RemoveQuotes(etag)
  {
    if StartsWith(etag, WeakPrefix) then
      var r := RemoveQuotes(etag[|WeakPrefix|..]);
      assert etag == WeakPrefix + etag[|WeakPrefix|..];
      RemoveQuotesAppend(WeakPrefix, etag[|WeakPrefix|..]);
      assert RemoveQuotes(WeakPrefix) == "W/";
      r
    else RemoveQuotes(etag)
  }

  /** `extractETag`: nothing for a missing or empty header; otherwise the
      first (at most) 32 characters of the normalised validator, which hold
      no quote. */
  function ExtractETag(header: Option<string>): (r: Option<string>)
    ensures r.None? <==> header.None? || header.value == ""
    ensures r.Some? ==> '"' !in r.value && |r.value| <= MaxLength
    ensures r.Some? ==> StartsWith(Normalize(header.value), r.value)
    ensures r.Some? ==> |r.value| == Min(MaxLength, |Normalize(header.value)|)
  {
    match header
    case None => None
    case Some(etag) =>
      if etag == "" then None
      else
        var n := Normalize(etag);
        var cut := n[..Min(MaxLength, |n|)];
        assert forall c | c in cut :: c in n;
        Some(cut)
  }

  /** Normalising a normalised validator changes nothing. */
  lemma ExtractIsIdempotent(header: Option<string>)
    requires ExtractETag(header).Some? && ExtractETag(header).value != ""
    ensures ExtractETag(ExtractETag(header)) == ExtractETag(header)
  {
    var v := ExtractETag(header).value;
    assert !StartsWith(v, WeakPrefix) by {
      assert WeakPrefix[2] == '"';
    }
    RemoveQuotesNoop(v);
    assert Normalize(v) == v;
    assert v[..|v|] == v;
    assert ExtractETag(header) == Some(v);
  }

  /** A weak validator longer than 32 characters is unwrapped and cut to
      exactly 32. */
  lemma WeakValidatorIsCut(v: string)
    requires '"' !in v
    requires |v| >= MaxLength
    ensures ExtractETag(Some(WeakPrefix + v + "\"")) == Some(v[..MaxLength])
  {
    var etag := WeakPrefix + v + "\"";
    assert etag[..|WeakPrefix|] == WeakPrefix;
    assert etag[|WeakPrefix|..] == v + "\"";
    RemoveQuotesAppend(v, "\"");
    RemoveQuotesNoop(v);
    assert RemoveQuotes("\"") == "";
    assert v + "" == v;
  }

  /** A strong validator is unwrapped and kept whole when it fits. */
  lemma StrongValidatorIsUnwrapped(v: string)
    requires '"' !in v
    requires |v| <= MaxLength
    ensures ExtractETag(Some("\"" + v + "\"")) == Some(v)
  {
    var etag := "\"" + v + "\"";
    assert !StartsWith(etag, WeakPrefix) by {
      assert etag[0] == '"';
    }
    RemoveQuotesAppend("\"" + v, "\"");
    RemoveQuotesAppend("\"", v);
    RemoveQuotesNoop(v);
    assert RemoveQuotes("\"") == "";
    assert "" + v + "" == v;
    assert Normalize(etag) == v;
    assert v[..|v|] == v;
  }
}

=== FILE: handler.dfy ===
/** The request handler (worker.js default `fetch`): the order in which it
    answers or rejects a request, when it reads and writes the edge cache and
    under which key, and what it forwards upstream.

    The cache store, the upstream and the clock are parameters (`Env`); the
    handler's decisions are returned as a `Decision` instead of being carried
    out. The handler reads the clock twice on a miss, once for the lookup key
    and once more after the upstream has answered; the two readings are
    separate dates, which differ when the fetch straddles UTC midnight. */
module Handler {
  import opened Text
  import opened Resolver
  import opened Strategy
  import opened ETag
  import opened CacheKeys
  import opened Retry

  /** The inbound request URL: origin and pathname, the raw query string
      (`url.search`: empty or starting with `?`) and its parameters. */
  datatype RequestUrl = RequestUrl(origin: string, pathname: string, search: string, params: map<string, string>)

  /** An inbound request. Header names are lower-case, since the platform's
      header lookup ignores case. */
  datatype Request = Request(httpMethod: string, url: RequestUrl, headers: map<string, string>)

  /** What the edge cache holds under a key; only the status is observed. */
  datatype Stored = Stored(status: int)

  /** What the handler consults outside itself: the UTC date when the lookup
      key is built (worker.js line 321), the UTC date when the mirror version
      is taken after the fetch (line 414), the URL parser, the edge cache's
      contents and the upstream. */
  datatype Env = Env(lookupDay: Date, replyDay: Date, parseUrl: UrlParser, cache: map<Url, Stored>, upstream: Upstream)

  /** The request sent upstream (each attempt sends the same one). */
  datatype UpstreamRequest = UpstreamRequest(url: string, httpMethod: string, headers: map<string, string>)

  /** How the handler answers. */
  datatype Reply =
    | Usage                                   // 400, plain-text usage message
    | Preflight                               // 204 with the CORS grant
    | MethodNotAllowed                        // 405
    | FromCache(status: int, strategy: Label)
    | FromUpstream(status: int, strategy: Label, target: string, mirrorVersion: string)
    | Failed(reason: string)                  // the fetch threw; the error leaves the handler

  /** The decisions taken for one request: the reply, the cache key read (if
      the cache was consulted), the upstream request (if one was sent), the
      number of upstream attempts, and the key written (if the reply is
      stored). */
  datatype Decision = Decision(
    reply: Reply,
    cacheRead: Option<Url>,
    upstream: Option<UpstreamRequest>,
    attempts: nat,
    cacheWrite: Option<Url>)

  /** Request headers passed upstream (worker.js lines 366-374). */
  const ForwardedHeaderNames: seq<string> :=
    ["range", "if-range", "if-none-match", "if-modified-since", "user-agent", "accept", "accept-encoding"]

  /** `headers.get(name) || ""`. */
  function HeaderValue(headers: map<string, string>, name: string): string {
    if name in headers then headers[name] else ""
  }

  /** `headers.get(name)`, absent as `None`. */
  function HeaderLookup(headers: map<string, string>, name: string): Option<string> {
    if name in headers then Some(headers[name]) else None
  }

  /** `!!request.headers.get("range")`. */
  predicate IsRange(req: Request) {
    HeaderValue(req.headers, "range") != ""
  }

  function AcceptEncoding(req: Request): string {
    HeaderValue(req.headers, "accept-encoding")
  }

  /** The request URL as the key builder sees it. */
  function KeyUrl(url: RequestUrl): Url {
    Url(url.origin + url.pathname, url.params)
  }

  /** The loop copying the listed headers that carry a non-empty value. */
  function ForwardHeaders(names: seq<string>, headers: map<string, string>): (fwd: map<string, string>)
    ensures forall name :: name in fwd <==> name in names && HeaderValue(headers, name) != ""
    ensures forall name | name in fwd :: name in headers && fwd[name] == headers[name]
  {
    if |names| == 0 then map[]
    else
      var rest := ForwardHeaders(names[..|names| - 1], headers);
      var name := names[|names| - 1];
      assert forall n | n in names :: n in names[..|names| - 1] || n == name;
      var v := HeaderValue(headers, name);
      if v != "" then rest[name := v] else rest
  }

  function Resolve(req: Request, env: Env): Option<Target> {
    ParseGitHubPath(req.url.pathname, env.parseUrl)
  }

  /** The key the cache is read under: date-versioned, never ETag-versioned. */
  function InitialKey(req: Request, env: Env): Url {
    OptimalCacheKey(KeyUrl(req.url), AcceptEncoding(req), None, env.lookupDay)
  }

  /** The ETag a fetched response is versioned by: the extracted ETag when
      the policy wants one and it is a non-empty string, otherwise none. A
      used ETag is a non-empty, quote-free prefix of the normalised header of
      at most 32 characters, so it is what goes into `__v` of an ETag-keyed
      entry. */
  function ETagVersion(policy: Policy, headers: map<string, string>): (e: Option<string>)
    ensures e.Some? <==> policy.useETag && ExtractETag(HeaderLookup(headers, "etag")).Some? &&
                         ExtractETag(HeaderLookup(headers, "etag")).value != ""
    ensures e.Some? ==> e == ExtractETag(HeaderLookup(headers, "etag"))
    ensures e.Some? ==> 0 < |e.value| <= MaxLength && '"' !in e.value
    ensures e.Some? ==> "etag" in headers && StartsWith(Normalize(headers["etag"]), e.value)
  {
    if policy.useETag then
      var etag := ExtractETag(HeaderLookup(headers, "etag"));
      if etag.Some? && etag.value != "" then etag else None
    else None
  }

  /** The version a fetched response is reported under (`X-Mirror-Version`)
      when the clock reads `day`: the ETag in use, otherwise the date. It is
      the version tag the key builder derives from the same ETag on that
      day. */
  function MirrorVersion(policy: Policy, headers: map<string, string>, day: Date): (v: string)
    ensures !policy.useETag ==> v == CacheVersion(day)
    ensures policy.useETag && ExtractETag(HeaderLookup(headers, "etag")).Some? &&
            ExtractETag(HeaderLookup(headers, "etag")).value != "" ==>
              v == ExtractETag(HeaderLookup(headers, "etag")).value
    ensures v != CacheVersion(day) ==> policy.useETag && ExtractETag(HeaderLookup(headers, "etag")) == Some(v)
    ensures v != ""
  {
    VersionTag(ETagVersion(policy, headers), day)
  }

  /** The ETag version of the response a request fetched, if it reached
      upstream and got a response. */
  function FetchedETag(req: Request, env: Env): Option<string> {
    match Resolve(req, env)
    case None => None
    case Some(target) =>
      var result := FetchWithRetry(env.upstream, MaxRetries).result;
      if result.Returned? then ETagVersion(CacheStrategy(target.path), result.headers) else None
  }

  /** The default `fetch` handler: the path is checked before the method,
      preflight requests are granted, and only GET and HEAD are served. */
  function Handle(req: Request, env: Env): (d: Decision)
    ensures Resolve(req, env).None? ==> d == Decision(Usage, None, None, 0, None)
    ensures Resolve(req, env).Some? && req.httpMethod == "OPTIONS" ==> d == Decision(Preflight, None, None, 0, None)
    ensures Resolve(req, env).Some? && req.httpMethod != "OPTIONS" && req.httpMethod != "GET" && req.httpMethod != "HEAD" ==>
              d == Decision(MethodNotAllowed, None, None, 0, None)
    ensures Resolve(req, env).Some? && (req.httpMethod == "GET" || req.httpMethod == "HEAD") ==>
              d == Serve(req, env, Resolve(req, env).value)
  {
    match Resolve(req, env)
    case None => Decision(Usage, None, None, 0, None)
    case Some(target) =>
      if req.httpMethod == "OPTIONS" then Decision(Preflight, None, None, 0, None)
      else if req.httpMethod != "GET" && req.httpMethod != "HEAD" then Decision(MethodNotAllowed, None, None, 0, None)
      else Serve(req, env, target)
  }

  /** Serving a GET or HEAD for a resolved target: a full GET is looked up in
      the cache under the date-versioned key; otherwise the request goes
      upstream, and a full GET that fetched a 200 is stored under the lookup
      key, rebuilt with the ETag when one is used. */
  function Serve(req: Request, env: Env, target: Target): (d: Decision)
    requires req.httpMethod == "GET" || req.httpMethod == "HEAD"
    ensures d.reply.FromCache? || d.reply.FromUpstream? || d.reply.Failed?
    ensures d.reply.FromCache? || d.reply.FromUpstream? ==> d.reply.strategy == CacheStrategy(target.path).description
    ensures d.cacheRead.Some? <==> req.httpMethod == "GET" && !IsRange(req)
    ensures d.cacheRead.Some? ==> d.cacheRead.value == InitialKey(req, env)
    ensures d.reply.FromCache? <==> d.cacheRead.Some? && d.cacheRead.value in env.cache
    ensures d.reply.FromCache? ==>
              d.upstream.None? && d.cacheWrite.None? && d.reply.status == env.cache[d.cacheRead.value].status
    ensures !d.reply.FromCache? ==>
              && d.upstream == Some(UpstreamRequest(target.fullUrl + req.url.search, req.httpMethod,
                                                    ForwardHeaders(ForwardedHeaderNames, req.headers)))
              && d.attempts == FetchWithRetry(env.upstream, MaxRetries).attempts
    ensures d.reply.FromUpstream? <==> FetchWithRetry(env.upstream, MaxRetries).result.Returned? && !d.reply.FromCache?
    ensures d.reply.FromUpstream? ==>
              && d.reply.status == FetchWithRetry(env.upstream, MaxRetries).result.status
              && d.reply.target == target.fullUrl + req.url.search
              && d.reply.mirrorVersion ==
                   MirrorVersion(CacheStrategy(target.path), FetchWithRetry(env.upstream, MaxRetries).result.headers,
                                 env.replyDay)
    ensures d.cacheWrite.Some? <==>
              req.httpMethod == "GET" && !IsRange(req) && d.reply.FromUpstream? && d.reply.status == 200
    ensures d.cacheWrite.Some? ==>
              d.cacheWrite.value ==
                OptimalCacheKey(KeyUrl(req.url), AcceptEncoding(req),
                                ETagVersion(CacheStrategy(target.path), FetchWithRetry(env.upstream, MaxRetries).result.headers),
                                env.lookupDay)
  {
    var policy := CacheStrategy(target.path);
    var acceptEncoding := AcceptEncoding(req);
    var initialKey := OptimalCacheKey(KeyUrl(req.url), acceptEncoding, None, env.lookupDay);
    var upstreamUrl := target.fullUrl + req.url.search;
    var isRange := IsRange(req);
    var read := if req.httpMethod == "GET" && !isRange then Some(initialKey) else None;
    if read.Some? && initialKey in env.cache then
      Decision(FromCache(env.cache[initialKey].status, policy.description), read, None, 0, None)
    else
      var forwarded := UpstreamRequest(upstreamUrl, req.httpMethod, ForwardHeaders(ForwardedHeaderNames, req.headers));
      var run := FetchWithRetry(env.upstream, MaxRetries);
      match run.result
      case Thrown(reason) => Decision(Failed(reason), read, Some(forwarded), run.attempts, None)
      case NoResponse => Decision(Failed("no response"), read, Some(forwarded), run.attempts, None)
      case Returned(status, headers) =>
        var version := MirrorVersion(policy, headers, env.replyDay);
        var write := if req.httpMethod == "GET" && status == 200 && !isRange
                     then Some(FinalKey(req, env, policy, headers)) else None;
        Decision(FromUpstream(status, policy.description, upstreamUrl, version), read, Some(forwarded),
                 run.attempts, write)
  }

  /** The key a fetched response is stored under: the lookup key, rebuilt
      with the ETag when the policy uses one and the response carries one.
      With an ETag the key carries the mirror version, whenever the clock is
      read; without one it keeps the lookup date. */
  function FinalKey(req: Request, env: Env, policy: Policy, headers: map<string, string>): (k: Url)
    ensures k == OptimalCacheKey(KeyUrl(req.url), AcceptEncoding(req), ETagVersion(policy, headers), env.lookupDay)
    ensures ETagVersion(policy, headers).Some? ==>
              k == OptimalCacheKey(KeyUrl(req.url), AcceptEncoding(req),
                                   Some(MirrorVersion(policy, headers, env.replyDay)), env.lookupDay)
    ensures ETagVersion(policy, headers).None? ==> k == InitialKey(req, env)
  {
    var etag := ETagVersion(policy, headers);
    if etag.Some? then OptimalCacheKey(KeyUrl(req.url), AcceptEncoding(req), etag, env.lookupDay)
    else InitialKey(req, env)
  }

  /** A response is written back under the key the cache is read with
      exactly when it is filed under the lookup date rather than an ETag (or
      under an ETag that happens to spell that date). When the clock reads
      the same day twice, that is exactly when the mirror version is the
      date. */
  lemma WriteKeyIsReadKeyIffDateVersioned(req: Request, env: Env)
    ensures var d := Handle(req, env);
            d.cacheWrite.Some? ==>
              (d.cacheWrite == d.cacheRead <==>
               FetchedETag(req, env).None? || FetchedETag(req, env).value == CacheVersion(env.lookupDay))
    ensures var d := Handle(req, env);
            d.cacheWrite.Some? && env.replyDay == env.lookupDay ==>
              (d.cacheWrite == d.cacheRead <==> d.reply.mirrorVersion == CacheVersion(env.lookupDay))
  {
    var d := Handle(req, env);
    if d.cacheWrite.Some? {
      WriteKeyVersion(req, env);
      var e := FetchedETag(req, env);
      if e.None? || e.value == CacheVersion(env.lookupDay) {
        SameTagSameKey(KeyUrl(req.url), AcceptEncoding(req), e, env.lookupDay, None, env.lookupDay);
      } else {
        assert d.cacheWrite.value.params[VersionParam] != d.cacheRead.value.params[VersionParam];
      }
    }
  }

  /** The stored key differs from the lookup key only when the policy asks
      for ETag validation and the upstream response carried an ETag, which
      then is the mirror version. */
  lemma WriteKeyDiffersOnlyForETag(req: Request, env: Env)
    ensures var d := Handle(req, env);
            d.cacheWrite.Some? && d.cacheWrite != d.cacheRead ==>
              && Resolve(req, env).Some?
              && CacheStrategy(Resolve(req, env).value.path).useETag
              && FetchWithRetry(env.upstream, MaxRetries).result.Returned?
              && ExtractETag(HeaderLookup(FetchWithRetry(env.upstream, MaxRetries).result.headers, "etag")) ==
                 Some(d.reply.mirrorVersion)
  {
    WriteKeyIsReadKeyIffDateVersioned(req, env);
    WriteKeyVersion(req, env);
  }

  /** A full GET for a resolved path finds what the cache holds under the
      lookup key. */
  lemma LookupHit(req: Request, env: Env)
    ensures Resolve(req, env).Some? && req.httpMethod == "GET" && !IsRange(req) && InitialKey(req, env) in env.cache ==>
              Handle(req, env).reply ==
              FromCache(env.cache[InitialKey(req, env)].status, CacheStrategy(Resolve(req, env).value.path).description)
  {
    if Resolve(req, env).Some? && req.httpMethod == "GET" && !IsRange(req) && InitialKey(req, env) in env.cache {
      var d := Serve(req, env, Resolve(req, env).value);
      assert d.cacheRead == Some(InitialKey(req, env));
    }
  }

  /** Once a fetched 200 filed under the lookup date is stored, the same
      request with the same lookup date is answered from the cache without
      going upstream. */
  lemma WriteThenHit(req: Request, env: Env, stored: Stored)
    ensures var d := Handle(req, env);
            d.cacheWrite.Some? && FetchedETag(req, env).None? ==>
              Handle(req, env.(cache := env.cache[d.cacheWrite.value := stored])).reply ==
              FromCache(stored.status, d.reply.strategy)
  {
    var d := Handle(req, env);
    if d.cacheWrite.Some? && FetchedETag(req, env).None? {
      WriteKeyIsReadKeyIffDateVersioned(req, env);
      var target := Resolve(req, env).value;
      var key := InitialKey(req, env);
      assert d == Serve(req, env, target);
      assert d.cacheWrite == Some(key);
      var env' := env.(cache := env.cache[key := stored]);
      assert Resolve(req, env') == Some(target);
      assert InitialKey(req, env') == key;
      LookupHit(req, env');
    }
  }

  /** The cache is only ever read under the lookup date's version. */
  lemma ReadKeyVersion(req: Request, env: Env)
    ensures var d := Handle(req, env);
            d.cacheRead.Some? ==> d.cacheRead.value.params[VersionParam] == CacheVersion(env.lookupDay)
  {
  }

  /** A stored response is keyed by `etag || ` the first clock reading, while
      its mirror version is `etag || ` the second; the two agree when an ETag
      is used or the clock reads the same day twice. */
  lemma WriteKeyVersion(req: Request, env: Env)
    ensures var d := Handle(req, env);
            d.cacheWrite.Some? ==>
              && d.cacheWrite.value.params[VersionParam] == VersionTag(FetchedETag(req, env), env.lookupDay)
              && d.reply.mirrorVersion == VersionTag(FetchedETag(req, env), env.replyDay)
    ensures var d := Handle(req, env);
            d.cacheWrite.Some? && (FetchedETag(req, env).Some? || env.replyDay == env.lookupDay) ==>
              d.cacheWrite.value.params[VersionParam] == d.reply.mirrorVersion
  {
    var d := Handle(req, env);
    if d.cacheWrite.Some? {
      var target := Resolve(req, env).value;
      assert d == Serve(req, env, target);
    }
  }

  /** A date-versioned 200 whose fetch straddles UTC midnight is stored under
      the lookup key, dated the first day, while it reports the second day as
      its mirror version. */
  lemma MidnightWriteKeepsLookupDate(req: Request, env: Env)
    requires ValidDate(env.lookupDay) && ValidDate(env.replyDay) && env.lookupDay != env.replyDay
    ensures var d := Handle(req, env);
            d.cacheWrite.Some? && FetchedETag(req, env).None? ==>
              && d.cacheWrite == d.cacheRead
              && d.cacheWrite.value.params[VersionParam] == CacheVersion(env.lookupDay)
              && d.reply.mirrorVersion == CacheVersion(env.replyDay)
              && d.cacheWrite.value.params[VersionParam] != d.reply.mirrorVersion
  {
    WriteKeyVersion(req, env);
    WriteKeyIsReadKeyIffDateVersioned(req, env);
    DistinctDatesDistinctVersions(env.lookupDay, env.replyDay);
  }

  /** An entry filed under an ETag that is not an eight-digit string is never
      read back, on any day: reads always use the date-based version. */
  lemma ETagEntriesAreNeverRead(req: Request, env: Env, req': Request, env': Env)
    requires ValidDate(env'.lookupDay)
    ensures var d := Handle(req, env);
            d.cacheWrite.Some? && FetchedETag(req, env).Some? &&
            !(|FetchedETag(req, env).value| == 8 && AllDigits(FetchedETag(req, env).value)) ==>
              Handle(req', env').cacheRead != d.cacheWrite
  {
    ReadKeyVersion(req', env');
    WriteKeyVersion(req, env);
  }

  /** A Range request neither reads nor writes the cache. */
  lemma RangeRequestsBypassCache(req: Request, env: Env)
    requires IsRange(req)
    ensures Handle(req, env).cacheRead.None? && Handle(req, env).cacheWrite.None?
  {
  }

  /** A HEAD request neither reads nor writes the cache. */
  lemma HeadIsNeverCached(req: Request, env: Env)
    requires req.httpMethod == "HEAD"
    ensures Handle(req, env).cacheRead.None? && Handle(req, env).cacheWrite.None?
  {
  }

  /** Credentials and cookies are never passed upstream. */
  lemma CredentialsStayBehind(headers: map<string, string>)
    ensures "authorization" !in ForwardHeaders(ForwardedHeaderNames, headers)
    ensures "cookie" !in ForwardHeaders(ForwardedHeaderNames, headers)
  {
    assert "authorization" !in ForwardedHeaderNames by {
      forall i | 0 <= i < |ForwardedHeaderNames|
        ensures ForwardedHeaderNames[i] != "authorization"
      {
        assert |ForwardedHeaderNames[i]| != 13 || ForwardedHeaderNames[i][0] != 'a';
      }
    }
    assert "cookie" !in ForwardedHeaderNames by {
      forall i | 0 <= i < |ForwardedHeaderNames|
        ensures ForwardedHeaderNames[i] != "cookie"
      {
        assert |ForwardedHeaderNames[i]| != 6 || ForwardedHeaderNames[i][0] != 'c';
      }
    }
  }

  /** A 4xx on the first attempt is passed through after that one attempt,
      and is not stored. */
  lemma ClientErrorIsNotRetried(req: Request, env: Env)
    requires env.upstream(0).Response? && IsClientError(env.upstream(0).status)
    ensures var d := Handle(req, env);
            d.upstream.Some? ==>
              && d.attempts == 1
              && d.reply == FromUpstream(env.upstream(0).status, d.reply.strategy, d.reply.target, d.reply.mirrorVersion)
              && d.cacheWrite.None?
  {
    FirstFinalSettles(env.upstream, MaxRetries, 0);
  }
}

=== FILE: resolver.dfy ===
/** The path resolver: turns the pathname of an inbound request into the
    upstream target `{host, path, fullUrl}`, accepting only the four mirrored
    GitHub hosts (worker.js `parseGitHubPath`). */
module Resolver {
  import opened Text

  /** The allow-list of mirrored hosts (worker.js `GITHUB_HOSTS`). */
  const GitHubHosts: seq<string> :=
    ["github.com", "raw.githubusercontent.com", "gist.github.com", "gist.githubusercontent.com"]

  /** The host used when the path names none. */
  const DefaultHost: string := "github.com"

  /** The parts of an absolute URL that the resolver reads from the WHATWG
      URL parser. */
  datatype AbsoluteUrl = AbsoluteUrl(hostname: string, pathname: string, search: string, hash: string, href: string)

  /** The URL parser is not modelled: it is a parameter. `None` stands for the
      parser throwing on a malformed URL. */
  type UrlParser = string -> Option<AbsoluteUrl>

  /** The resolved upstream target. */
  datatype Target = Target(host: string, path: string, fullUrl: string)

  predicate AllSlashes(s: string) {
    forall k | 0 <= k < |s| :: s[k] == '/'
  }

  /** Neither starts nor ends with a slash. */
  predicate Unframed(s: string) {
    s == [] || (s[0] != '/' && s[|s| - 1] != '/')
  }

  /** The length of the run of slashes that starts `s`. */
  function LeadingSlashes(s: string): (n: nat)
    ensures n <= |s| && AllSlashes(s[..n])
    ensures n == |s| || s[n] != '/'
    decreases |s|
  {
    if |s| > 0 && s[0] == '/' then
      var m := LeadingSlashes(s[1..]);
      assert s[..m + 1] == [s[0]] + s[1..][..m];
      m + 1
    else 0
  }

  /** The length of the run of slashes that ends `s`. */
  function TrailingSlashes(s: string): (n: nat)
    ensures n <= |s| && AllSlashes(s[|s| - n..])
    ensures n == |s| || s[|s| - n - 1] != '/'
    decreases |s|
  {
    if |s| > 0 && s[|s| - 1] == '/' then
      var m := TrailingSlashes(s[..|s| - 1]);
      assert s[|s| - m - 1..] == s[..|s| - 1][|s| - 1 - m..] + [s[|s| - 1]];
      m + 1
    else 0
  }

  /** `pathname.replace(/^\/+|\/+$/g, '')`: the pathname with its runs of
      leading and trailing slashes removed; what is left sits between two
      runs of slashes and is itself unframed. */
  function CleanPath(pathname: string): (r: string)
    ensures Unframed(r)
    ensures exists i | 0 <= i <= |pathname| - |r| ::
              OccursAt(pathname, r, i) && AllSlashes(pathname[..i]) && AllSlashes(pathname[i + |r|..])
  {
    var i := LeadingSlashes(pathname);
    if i == |pathname| then
      assert OccursAt(pathname, [], i) && pathname[i..] == [];
      []
    else
      var n := TrailingSlashes(pathname);
      var j := |pathname| - n;
      assert forall k | j <= k < |pathname| :: pathname[k] == '/' by {
        forall k | j <= k < |pathname|
          ensures pathname[k] == '/'
        {
          assert pathname[j..][k - j] == pathname[k];
        }
      }
      assert pathname[i] != '/';
      var r := pathname[i..j];
      assert r[0] == pathname[i] && r[|r| - 1] == pathname[j - 1];
      assert OccursAt(pathname, r, i) && i + |r| == j;
      r
  }

  /** A run of slashes in front of a piece that does not start with one is
      exactly the leading run. */
  lemma {:induction false} LeadingOfSlashes(lead: string, rest: string)
    requires AllSlashes(lead)
    requires rest == [] || rest[0] != '/'
    ensures LeadingSlashes(lead + rest) == |lead|
    decreases |lead|
  {
    if |lead| > 0 {
      assert (lead + rest)[1..] == lead[1..] + rest;
      LeadingOfSlashes(lead[1..], rest);
    } else {
      assert lead + rest == rest;
    }
  }

  /** A run of slashes after a piece that does not end with one is exactly
      the trailing run. */
  lemma {:induction false} TrailingOfSlashes(rest: string, trail: string)
    requires AllSlashes(trail)
    requires rest == [] || rest[|rest| - 1] != '/'
    ensures TrailingSlashes(rest + trail) == |trail|
    decreases |trail|
  {
    if |trail| > 0 {
      assert (rest + trail)[..|rest + trail| - 1] == rest + trail[..|trail| - 1];
      TrailingOfSlashes(rest, trail[..|trail| - 1]);
    } else {
      assert rest + trail == rest;
    }
  }

  /** The cleaned path is the only unframed string that the pathname holds
      between two runs of slashes. */
  lemma CleanPathOfFramed(lead: string, t: string, trail: string)
    requires AllSlashes(lead) && AllSlashes(trail)
    requires Unframed(t)
    ensures CleanPath(lead + t + trail) == t
  {
    var s := lead + t + trail;
    if t == [] {
      assert s == (lead + trail) + [];
      assert AllSlashes(lead + trail);
      LeadingOfSlashes(lead + trail, []);
    } else {
      assert s == lead + (t + trail);
      LeadingOfSlashes(lead, t + trail);
      assert (lead + t)[|lead + t| - 1] == t[|t| - 1];
      TrailingOfSlashes(lead + t, trail);
      assert s[|lead|..|s| - |trail|] == t;
    }
  }

  /** The cleaned path looks like an absolute http(s) URL. */
  predicate IsAbsoluteForm(clean: string) {
    StartsWith(clean, "https://") || StartsWith(clean, "http://")
  }

  /** The absolute-URL form applies: the string looks like a URL and the
      parser accepts it. */
  predicate TakesUrlForm(clean: string, parseUrl: UrlParser) {
    IsAbsoluteForm(clean) && parseUrl(clean).Some?
  }

  /** Forms 2 and 3 of the resolver: a host-prefixed path, or a bare path
      that defaults to `github.com`. */
  function ResolveSegments(clean: string): (t: Target)
    ensures t.host in GitHubHosts
    ensures StartsWith(t.path, "/")
    ensures t.fullUrl == "https://" + t.host + t.path
    ensures Split(clean, '/')[0] in GitHubHosts ==>
              t.host == Split(clean, '/')[0] && (t.host + t.path == clean || (clean == t.host && t.path == "/"))
    ensures Split(clean, '/')[0] !in GitHubHosts ==> t.host == DefaultHost && t.path == "/" + clean
  {
    var parts := Split(clean, '/');
    if parts[0] in GitHubHosts then
      var host := parts[0];
      var path := "/" + Join(parts[1..], '/');
      HostPrefixShape(clean);
      Target(host, path, "https://" + host + path)
    else
      Target(DefaultHost, "/" + clean, "https://" + DefaultHost + "/" + clean)
  }

  /** The first piece of a split, a slash and the remaining pieces joined
      back give the string again; without a slash the first piece is all of
      it. */
  lemma HostPrefixShape(clean: string)
    ensures var parts := Split(clean, '/');
            parts[0] + "/" + Join(parts[1..], '/') == clean ||
            (parts[0] == clean && Join(parts[1..], '/') == "")
  {
    if '/' in clean {
      var j := FirstSlash(clean);
      var head, tail := clean[..j], clean[j + 1..];
      assert clean == head + ['/'] + tail;
      SplitAfterSegment(head, tail, '/');
      JoinSplit(tail, '/');
      assert ([head] + Split(tail, '/'))[1..] == Split(tail, '/');
    } else {
      SplitWithoutSeparator(clean, '/');
    }
  }

  /** The index of the first slash in a string that has one. */
  function FirstSlash(s: string): (j: nat)
    requires '/' in s
    ensures j < |s| && s[j] == '/' && '/' !in s[..j]
  {
    if s[0] == '/' then 0
    else
      assert '/' in s[1..] by {
        var i :| 0 <= i < |s| && s[i] == '/';
        assert s[1..][i - 1] == '/';
      }
      var j := 1 + FirstSlash(s[1..]);
      assert s[..j] == [s[0]] + s[1..][..j - 1];
      j
  }

  /** `parseGitHubPath`: `None` for an empty path and for an absolute URL whose
      host is not mirrored; otherwise a target whose host is on the
      allow-list. */
  function ParseGitHubPath(pathname: string, parseUrl: UrlParser): (r: Option<Target>)
    ensures r.None? <==>
              CleanPath(pathname) == [] ||
              (TakesUrlForm(CleanPath(pathname), parseUrl) &&
               parseUrl(CleanPath(pathname)).value.hostname !in GitHubHosts)
    ensures r.Some? ==> r.value.host in GitHubHosts
    ensures r.Some? && TakesUrlForm(CleanPath(pathname), parseUrl) ==>
              var u := parseUrl(CleanPath(pathname)).value;
              r.value.host == u.hostname && r.value.path == u.pathname + u.search + u.hash && r.value.fullUrl == u.href
    ensures r.Some? && !TakesUrlForm(CleanPath(pathname), parseUrl) ==>
              StartsWith(r.value.path, "/") && r.value.fullUrl == "https://" + r.value.host + r.value.path
  {
    var clean := CleanPath(pathname);
    if clean == [] then None
    else if TakesUrlForm(clean, parseUrl) then
      var u := parseUrl(clean).value;
      if u.hostname in GitHubHosts then Some(Target(u.hostname, u.pathname + u.search + u.hash, u.href))
      else None
    else Some(ResolveSegments(clean))
  }

  /** No mirrored host carries a slash or starts the way a URL does. */
  lemma HostShape(host: string)
    requires host in GitHubHosts
    ensures |host| > 0 && host[0] != 'h' && '/' !in host && Unframed(host)
  {
  }

  /** A string that does not start with `h` is not an absolute URL. */
  lemma NotAbsolute(s: string)
    requires |s| > 0 && s[0] != 'h'
    ensures !IsAbsoluteForm(s)
  {
    assert "https://"[0] == 'h' && "http://"[0] == 'h';
  }

  /** A non-empty cleaned path that does not take the URL form resolves
      through the host-prefixed or bare forms. */
  lemma ParseBySegments(pathname: string, parseUrl: UrlParser)
    requires CleanPath(pathname) != []
    requires !TakesUrlForm(CleanPath(pathname), parseUrl)
    ensures ParseGitHubPath(pathname, parseUrl) == Some(ResolveSegments(CleanPath(pathname)))
  {
  }

  /** Form 2 on an already cleaned path. */
  lemma SegmentsWithHost(host: string, p: string)
    requires host in GitHubHosts
    ensures ResolveSegments(host + "/" + p) == Target(host, "/" + p, "https://" + host + "/" + p)
  {
    var clean := host + "/" + p;
    assert host + ("/" + p) == clean;
    assert "https://" + host + ("/" + p) == "https://" + host + "/" + p;
    HostShape(host);
    SplitAfterSegment(host, p, '/');
    assert Split(clean, '/')[0] == host;
    var t := ResolveSegments(clean);
    assert |clean| > |host|;
    CancelPrefix(host, t.path, "/" + p);
  }

  lemma CancelPrefix(a: string, b: string, c: string)
    requires a + b == a + c
    ensures b == c
  {
    assert b == (a + b)[|a|..];
  }

  /** Form 2 on a host alone: the path is the root. */
  lemma SegmentsHostOnly(host: string)
    requires host in GitHubHosts
    ensures ResolveSegments(host) == Target(host, "/", "https://" + host + "/")
  {
    HostShape(host);
    SplitWithoutSeparator(host, '/');
    var t := ResolveSegments(host);
    assert |host + t.path| > |host|;
  }

  /** Form 2: `/H/P` for a mirrored host H resolves to host H and path `/P`. */
  lemma HostPrefixedPath(host: string, p: string, parseUrl: UrlParser)
    requires host in GitHubHosts
    requires Unframed(p)
    ensures ParseGitHubPath("/" + host + "/" + p, parseUrl) ==
              Some(Target(host, "/" + p, "https://" + host + "/" + p))
  {
    if p == [] {
      var pathname, url := "/" + host + "/", "https://" + host + "/";
      assert pathname + p == pathname && url + p == url && "/" + p == "/";
      HostAlonePath(host, parseUrl);
    } else {
      HostWithPath(host, p, parseUrl);
    }
  }

  lemma HostWithPath(host: string, p: string, parseUrl: UrlParser)
    requires host in GitHubHosts
    requires p != [] && Unframed(p)
    ensures ParseGitHubPath("/" + host + "/" + p, parseUrl) ==
              Some(Target(host, "/" + p, "https://" + host + "/" + p))
  {
    HostShape(host);
    var clean := host + "/" + p;
    var pathname := "/" + host + "/" + p;
    assert pathname == "/" + clean + "" by {
      assert "/" + (host + "/" + p) == "/" + host + "/" + p;
    }
    assert Unframed(clean) by {
      assert clean[0] == host[0] && clean[|clean| - 1] == p[|p| - 1];
    }
    CleanPathOfFramed("/", clean, "");
    assert CleanPath(pathname) == clean;
    NotAbsolute(clean);
    ParseBySegments(pathname, parseUrl);
    SegmentsWithHost(host, p);
  }

  /** `/H/` for a mirrored host H resolves to the root of H. */
  lemma HostAlonePath(host: string, parseUrl: UrlParser)
    requires host in GitHubHosts
    ensures ParseGitHubPath("/" + host + "/", parseUrl) == Some(Target(host, "/", "https://" + host + "/"))
  {
    HostShape(host);
    CleanPathOfFramed("/", host, "/");
    NotAbsolute(host);
    ParseBySegments("/" + host + "/", parseUrl);
    SegmentsHostOnly(host);
  }

  /** Form 3: a bare path whose first piece is not a mirrored host goes to
      `github.com` unchanged. */
  lemma BarePath(p: string, parseUrl: UrlParser)
    requires p != [] && Unframed(p)
    requires Split(p, '/')[0] !in GitHubHosts
    requires !TakesUrlForm(p, parseUrl)
    ensures ParseGitHubPath("/" + p, parseUrl) ==
              Some(Target(DefaultHost, "/" + p, "https://" + DefaultHost + "/" + p))
  {
    assert "/" + p == "/" + p + "";
    CleanPathOfFramed("/", p, "");
  }

  lemma DefaultPrefix(p: string)
    ensures "/github.com/" + p == "/" + DefaultHost + "/" + p
  {
    assert "/github.com/" == "/" + DefaultHost + "/";
  }

  /** `/github.com/P` and `/P` resolve to the same target whenever the bare
      form applies to P. */
  lemma DefaultHostIsImplicit(p: string, parseUrl: UrlParser)
    requires p != [] && Unframed(p)
    requires Split(p, '/')[0] !in GitHubHosts
    requires !TakesUrlForm(p, parseUrl)
    ensures ParseGitHubPath("/github.com/" + p, parseUrl) == ParseGitHubPath("/" + p, parseUrl)
  {
    DefaultPrefix(p);
    HostPrefixedPath(DefaultHost, p, parseUrl);
    BarePath(p, parseUrl);
  }
}

=== FILE: retry.dfy ===
/** The resilient fetcher (worker.js `fetchWithRetry`), abstracted over what
    the upstream does on each attempt. Timers, the abort controller and the
    sleeps are not modelled; only the delays the loop would wait are kept. */
module Retry {

  /** Retries after the first attempt (worker.js `MAX_RETRIES`). */
  const MaxRetries: nat := 2

  /** The unit of the linear backoff, in milliseconds (worker.js `RETRY_DELAY_MS`). */
  const RetryDelayMs: nat := 500

  /** What one attempt yields: a response, or a thrown error. A network
      failure and the per-attempt timeout abort both appear as `NetworkError`. */
  datatype Outcome = Response(status: int, headers: map<string, string>) | NetworkError(reason: string)

  /** The upstream, as the outcome of each attempt by its index. */
  type Upstream = nat -> Outcome

  /** `response.ok`. */
  predicate IsOk(status: int) {
    200 <= status <= 299
  }

  predicate IsClientError(status: int) {
    400 <= status < 500
  }

  /** An outcome the loop returns at once, whatever attempts remain. */
  predicate IsFinal(o: Outcome) {
    o.Response? && (IsOk(o.status) || IsClientError(o.status))
  }

  /** What `fetchWithRetry` settles with: a response returned, an error
      rethrown, or, when the loop never runs, no value at all. */
  datatype FetchResult = Returned(status: int, headers: map<string, string>) | Thrown(reason: string) | NoResponse

  /** Settling on an attempt's outcome: a response is returned, an error is
      rethrown. */
  function Settle(o: Outcome): FetchResult {
    match o
    case Response(status, headers) => Returned(status, headers)
    case NetworkError(reason) => Thrown(reason)
  }

  /** One run of the loop: how it settled, how many attempts it made and the
      delays it waited between them, in order. */
  datatype Run = Run(result: FetchResult, attempts: nat, delays: seq<nat>)

  /** The wait after failed attempt `i` (counting from 0). */
  function Backoff(i: nat): nat {
    RetryDelayMs * (i + 1)
  }

  /** The loop from attempt `i` on: it stops at the first final outcome or at
      the last allowed attempt, and waits `Backoff(k)` after each failed
      attempt `k` before that. */
  function AttemptFrom(upstream: Upstream, retries: nat, i: nat): (run: Run)
    requires i <= retries
    ensures i < run.attempts <= retries + 1
    ensures |run.delays| == run.attempts - 1 - i
    ensures forall k | 0 <= k < |run.delays| :: run.delays[k] == Backoff(i + k)
    ensures forall k | i <= k < run.attempts - 1 :: !IsFinal(upstream(k))
    ensures IsFinal(upstream(run.attempts - 1)) || run.attempts == retries + 1
    ensures run.result == Settle(upstream(run.attempts - 1))
    decreases retries - i
  {
    var o := upstream(i);
    if IsFinal(o) then Run(Settle(o), i + 1, [])
    else if i < retries then
      var rest := AttemptFrom(upstream, retries, i + 1);
      Run(rest.result, rest.attempts, [Backoff(i)] + rest.delays)
    else Run(Settle(o), i + 1, [])
  }

  /** `fetchWithRetry`: at most `retries + 1` attempts; 2xx and 4xx are
      returned at once; anything else is retried after a linearly growing
      delay while attempts remain, and the last attempt settles the run. */
  function FetchWithRetry(upstream: Upstream, retries: int): (run: Run)
    ensures retries < 0 ==> run == Run(NoResponse, 0, [])
    ensures retries >= 0 ==> 1 <= run.attempts <= retries + 1 && run.result != NoResponse
    ensures |run.delays| == if run.attempts == 0 then 0 else run.attempts - 1
    ensures forall k | 0 <= k < |run.delays| :: run.delays[k] == Backoff(k)
    ensures forall k | 0 <= k < run.attempts - 1 :: !IsFinal(upstream(k))
    ensures run.attempts > 0 ==> IsFinal(upstream(run.attempts - 1)) || run.attempts == retries + 1
    ensures run.attempts > 0 ==> run.result == Settle(upstream(run.attempts - 1))
  {
    if retries < 0 then Run(NoResponse, 0, []) else AttemptFrom(upstream, retries, 0)
  }

  /** The first final outcome within the budget settles the run. */
  lemma FirstFinalSettles(upstream: Upstream, retries: nat, j: nat)
    requires j <= retries
    requires IsFinal(upstream(j))
    requires forall k | 0 <= k < j :: !IsFinal(upstream(k))
    ensures FetchWithRetry(upstream, retries).attempts == j + 1
    ensures FetchWithRetry(upstream, retries).result == Settle(upstream(j))
  {
  }

  /** With no final outcome in the budget, every attempt is made and the last
      one settles the run. */
  lemma BudgetExhausted(upstream: Upstream, retries: nat)
    requires forall k | 0 <= k <= retries :: !IsFinal(upstream(k))
    ensures FetchWithRetry(upstream, retries).attempts == retries + 1
    ensures FetchWithRetry(upstream, retries).result == Settle(upstream(retries))
  {
    var run := FetchWithRetry(upstream, retries);
    assert !IsFinal(upstream(run.attempts - 1));
  }

  /** The sum of a sequence of delays. */
  function Total(delays: seq<nat>): nat {
    if |delays| == 0 then 0 else Total(delays[..|delays| - 1]) + delays[|delays| - 1]
  }

  /** Linear backoff: after `n` failed attempts the loop has waited
      `RetryDelayMs * n * (n + 1) / 2` in all. */
  lemma {:induction false} LinearBackoffTotal(delays: seq<nat>)
    requires forall k | 0 <= k < |delays| :: delays[k] == Backoff(k)
    ensures 2 * Total(delays) == RetryDelayMs * |delays| * (|delays| + 1)
    decreases |delays|
  {
    var n := |delays|;
    if n > 0 {
      LinearBackoffTotal(delays[..n - 1]);
      assert delays[n - 1] == RetryDelayMs * n;
      assert RetryDelayMs * (n - 1) * n + 2 * RetryDelayMs * n == RetryDelayMs * n * (n + 1);
    }
  }

  /** With the configured budget a request waits at most 1.5 seconds in
      backoff before it settles. */
  lemma ConfiguredWaitBound(upstream: Upstream)
    ensures Total(FetchWithRetry(upstream, MaxRetries).delays) <= 1500
  {
    var run := FetchWithRetry(upstream, MaxRetries);
    LinearBackoffTotal(run.delays);
    var n := |run.delays|;
    assert n <= 2;
    assert RetryDelayMs * n * (n + 1) <= 3000 by {
      if n == 0 {} else if n == 1 {} else {}
    }
  }

  /** Two 503s and then a 200: three attempts, 500 ms and 1000 ms apart,
      and the 200 is returned. */
  lemma RecoversAfterTwoFailures(headers: map<string, string>)
    ensures var upstream: Upstream := (i: nat) => if i < 2 then Response(503, map[]) else Response(200, headers);
            FetchWithRetry(upstream, MaxRetries) == Run(Returned(200, headers), 3, [500, 1000])
  {
    var upstream: Upstream := (i: nat) => if i < 2 then Response(503, map[]) else Response(200, headers);
    FirstFinalSettles(upstream, MaxRetries, 2);
  }

  /** A 304 is neither ok nor a client error, so it is retried like a
      server error. */
  lemma NotModifiedIsRetried(headers: map<string, string>)
    ensures var upstream: Upstream := (i: nat) => if i == 0 then Response(304, map[]) else Response(200, headers);
            FetchWithRetry(upstream, MaxRetries) == Run(Returned(200, headers), 2, [500])
  {
    var upstream: Upstream := (i: nat) => if i == 0 then Response(304, map[]) else Response(200, headers);
    FirstFinalSettles(upstream, MaxRetries, 1);
  }
}

=== FILE: strategy.dfy ===
/** The strategy classifier (worker.js `getCacheStrategy`): a first-match-wins
    choice among three fixed cache policies, decided by the shape of the
    upstream path. */
module Strategy {
  import opened Text

  datatype Label = Dynamic | Versioned | Default

  /** A caching policy. TTLs are in seconds; `useETag` asks for the cache
      entry to be keyed by the upstream ETag when one is present. */
  datatype Policy = Policy(edgeTTL: nat, browserTTL: nat, useETag: bool, description: Label)

  const DynamicPolicy: Policy := Policy(3600, 300, true, Dynamic)
  const VersionedPolicy: Policy := Policy(2592000, 86400, false, Versioned)
  const DefaultPolicy: Policy := Policy(86400, 3600, true, Default)

  /** The volatile markers of rule 1: segments naming a moving ref. */
  const VolatileMarkers: seq<string> := ["/latest/", "/nightly/", "/master/", "/main/"]

  /** `path.includes(marker)` for one of the volatile markers. */
  predicate HasVolatileMarker(path: string) {
    exists marker | marker in VolatileMarkers :: Contains(path, marker)
  }

  /** `\d+` matched exactly. */
  predicate IsNumber(s: string) {
    |s| > 0 && forall k | 0 <= k < |s| :: IsDigit(s[k])
  }

  /** `\d+\.\d+(\.\d+)?` matched exactly. */
  predicate IsDottedVersion(s: string) {
    exists k | 0 < k < |s| ::
      s[k] == '.' && IsNumber(s[..k]) &&
      (IsNumber(s[k + 1..]) ||
       exists l | k + 1 < l < |s| :: s[l] == '.' && IsNumber(s[k + 1..l]) && IsNumber(s[l + 1..]))
  }

  /** `\/v?\d+\.\d+(\.\d+)?\/` matched exactly. */
  predicate IsVersionSegment(s: string) {
    && |s| >= 2 && s[0] == '/' && s[|s| - 1] == '/'
    && var body := s[1..|s| - 1];
       IsDottedVersion(body) || (|body| > 0 && body[0] == 'v' && IsDottedVersion(body[1..]))
  }

  predicate VersionSegmentAt(path: string, i: int, j: int) {
    0 <= i <= j <= |path| && IsVersionSegment(path[i..j])
  }

  /** The expression `/\/v?\d+\.\d+(\.\d+)?\//` finds a match in `path`. */
  predicate HasVersionSegment(path: string) {
    exists i, j | 0 <= i <= j <= |path| :: VersionSegmentAt(path, i, j)
  }

  /** The expression `/\/tags?\//` finds a match in `path`. */
  predicate HasTagSegment(path: string) {
    Contains(path, "/tag/") || Contains(path, "/tags/")
  }

  const ReleaseDownload: string := "/releases/download/"

  /** The expression `/\/releases\/download\/v?\d+/` matches at offset `i`. */
  predicate ReleaseDownloadAt(path: string, i: int) {
    && OccursAt(path, ReleaseDownload, i)
    && var j := i + |ReleaseDownload|;
       (j < |path| && IsDigit(path[j])) || (j + 1 < |path| && path[j] == 'v' && IsDigit(path[j + 1]))
  }

  predicate HasReleaseDownload(path: string) {
    exists i | 0 <= i <= |path| :: ReleaseDownloadAt(path, i)
  }

  /** Rule 2: any of the three versioned shapes. */
  predicate LooksVersioned(path: string) {
    HasVersionSegment(path) || HasTagSegment(path) || HasReleaseDownload(path)
  }

  /** The fixed policy behind each description. */
  function PolicyFor(kind: Label): Policy {
    match kind
    case Dynamic => DynamicPolicy
    case Versioned => VersionedPolicy
    case Default => DefaultPolicy
  }

  /** `getCacheStrategy`: rule 1 wins over rule 2, which wins over the
      default. Every policy lets the edge keep an entry longer than the
      browser, and asks for the ETag exactly when it is not versioned. */
  function CacheStrategy(path: string): (p: Policy)
    ensures p == PolicyFor(p.description)
    ensures p.description == Dynamic <==> HasVolatileMarker(path)
    ensures p.description == Versioned <==> !HasVolatileMarker(path) && LooksVersioned(path)
    ensures p.useETag <==> p.description != Versioned
    ensures p.browserTTL < p.edgeTTL
  {
    if HasVolatileMarker(path) then DynamicPolicy
    else if LooksVersioned(path) then VersionedPolicy
    else DefaultPolicy
  }

  lemma VersionSegmentInContext(a: string, path: string, b: string)
    requires HasVersionSegment(path)
    ensures HasVersionSegment(a + path + b)
  {
    var i, j :| 0 <= i <= j <= |path| && VersionSegmentAt(path, i, j);
    var t := a + path + b;
    assert t[|a| + i .. |a| + j] == path[i..j];
    assert VersionSegmentAt(t, |a| + i, |a| + j);
  }

  lemma ReleaseDownloadInContext(a: string, path: string, b: string)
    requires HasReleaseDownload(path)
    ensures HasReleaseDownload(a + path + b)
  {
    var i :| 0 <= i <= |path| && ReleaseDownloadAt(path, i);
    var t := a + path + b;
    var n := |ReleaseDownload|;
    assert t[|a| + i .. |a| + i + n] == path[i .. i + n];
    var j := i + n;
    if j < |path| {
      assert t[|a| + j] == path[j];
    }
    if j + 1 < |path| {
      assert t[|a| + j + 1] == path[j + 1];
    }
    assert ReleaseDownloadAt(t, |a| + i);
  }

  lemma VolatileInContext(a: string, path: string, b: string)
    requires HasVolatileMarker(path)
    ensures HasVolatileMarker(a + path + b)
  {
    if Contains(path, "/latest/") {
      ContainsInContext(a, path, b, "/latest/");
    } else if Contains(path, "/nightly/") {
      ContainsInContext(a, path, b, "/nightly/");
    } else if Contains(path, "/master/") {
      ContainsInContext(a, path, b, "/master/");
    } else {
      ContainsInContext(a, path, b, "/main/");
    }
  }

  lemma VersionedInContext(a: string, path: string, b: string)
    requires LooksVersioned(path)
    ensures LooksVersioned(a + path + b)
  {
    if HasVersionSegment(path) {
      VersionSegmentInContext(a, path, b);
    } else if HasTagSegment(path) {
      if Contains(path, "/tag/") {
        ContainsInContext(a, path, b, "/tag/");
      } else {
        ContainsInContext(a, path, b, "/tags/");
      }
    } else {
      ReleaseDownloadInContext(a, path, b);
    }
  }

  /** A dynamic path stays dynamic inside any longer path. */
  lemma DynamicInAnyContext(a: string, path: string, b: string)
    requires CacheStrategy(path).description == Dynamic
    ensures CacheStrategy(a + path + b) == DynamicPolicy
  {
    VolatileInContext(a, path, b);
  }

  /** A path that is not default stays long-lived or becomes dynamic inside
      any longer path: it never falls back to the default policy. */
  lemma NeverDefaultInContext(a: string, path: string, b: string)
    requires CacheStrategy(path).description != Default
    ensures CacheStrategy(a + path + b).description != Default
  {
    if HasVolatileMarker(path) {
      VolatileInContext(a, path, b);
    } else {
      VersionedInContext(a, path, b);
    }
  }

  /** Freshness wins: a volatile marker anywhere makes the path dynamic, even
      when the rest of the path has a versioned shape. */
  lemma VolatileMarkerWins(a: string, marker: string, b: string)
    requires marker in VolatileMarkers
    ensures CacheStrategy(a + marker + b) == DynamicPolicy
  {
    assert OccursAt(marker, marker, 0);
    assert HasVolatileMarker(marker);
    DynamicInAnyContext(a, marker, b);
  }

  /** A version segment such as `/v1.2.3/` makes a path without volatile
      markers versioned. */
  lemma VersionSegmentMeansVersioned(a: string, segment: string, b: string)
    requires IsVersionSegment(segment)
    requires !HasVolatileMarker(a + segment + b)
    ensures CacheStrategy(a + segment + b) == VersionedPolicy
  {
    assert segment[0..|segment|] == segment;
    assert VersionSegmentAt(segment, 0, |segment|);
    VersionSegmentInContext(a, segment, b);
  }

  /** `/v1.2.3/` has the version shape. */
  lemma PatchVersionSegment()
    ensures IsVersionSegment("/v1.2.3/")
  {
    var body := "/v1.2.3/"[1..7];
    assert body == "v1.2.3";
    var d := body[1..];
    assert d == "1.2.3";
    assert d[..1] == "1" && d[2..3] == "2" && d[4..] == "3";
    assert IsNumber(d[..1]) && IsNumber(d[2..3]) && IsNumber(d[4..]);
    assert IsDottedVersion(d);
  }
}

=== FILE: text.dfy ===
/** String and option helpers shared by the proxy model.

    Strings are `seq<char>`; the predicates here mirror the JavaScript string
    operations the worker relies on (`startsWith`, `includes`, `split`, `join`). */
module Text {

  /** A value that may be absent: JavaScript's `null`/`undefined` versus a value. */
  datatype Option<+T> = None | Some(value: T)

  /** `String.prototype.startsWith`. */
  predicate StartsWith(s: string, prefix: string) {
    |prefix| <= |s| && s[..|prefix|] == prefix
  }

  /** `needle` occurs in `s` starting at offset `i`. */
  predicate OccursAt(s: string, needle: string, i: int) {
    0 <= i && i + |needle| <= |s| && s[i..i + |needle|] == needle
  }

  /** `String.prototype.includes`: `needle` occurs somewhere in `s`. */
  predicate Contains(s: string, needle: string) {
    exists i | 0 <= i <= |s| - |needle| :: OccursAt(s, needle, i)
  }

  /** A decimal digit, as matched by `\d` in a JavaScript regular expression. */
  predicate IsDigit(c: char) {
    '0' <= c <= '9'
  }

  /** An occurrence survives any surrounding context. */
  lemma ContainsInContext(a: string, s: string, b: string, needle: string)
    requires Contains(s, needle)
    ensures Contains(a + s + b, needle)
  {
    var i :| 0 <= i <= |s| - |needle| && OccursAt(s, needle, i);
    var t := a + s + b;
    assert t[|a| + i .. |a| + i + |needle|] == s[i .. i + |needle|];
    assert OccursAt(t, needle, |a| + i);
  }

  /** `String.prototype.split` with a one-character separator: the pieces
      between separators, including empty pieces at either end. */
  function Split(s: string, sep: char): (parts: seq<string>)
    ensures |parts| >= 1
    decreases |s|
  {
    if |s| == 0 then [""]
    else
      var rest := Split(s[1..], sep);
      if s[0] == sep then [""] + rest
      else [[s[0]] + rest[0]] + rest[1..]
  }

  /** `Array.prototype.join` with a one-character separator. */
  function Join(parts: seq<string>, sep: char): string
  {
    if |parts| == 0 then ""
    else if |parts| == 1 then parts[0]
    else parts[0] + [sep] + Join(parts[1..], sep)
  }

  lemma JoinConsChar(c: char, parts: seq<string>, sep: char)
    requires |parts| >= 1
    ensures Join([[c] + parts[0]] + parts[1..], sep) == [c] + Join(parts, sep)
  {
    var q := [[c] + parts[0]] + parts[1..];
    if |parts| > 1 {
      assert q[1..] == parts[1..];
    }
  }

  /** Joining the pieces of a split restores the string. */
  lemma {:induction false} JoinSplit(s: string, sep: char)
    ensures Join(Split(s, sep), sep) == s
    decreases |s|
  {
    if |s| > 0 {
      JoinSplit(s[1..], sep);
      var rest := Split(s[1..], sep);
      if s[0] == sep {
        assert ([""] + rest)[1..] == rest;
        assert s == [sep] + s[1..];
      } else {
        JoinConsChar(s[0], rest, sep);
        assert s == [s[0]] + s[1..];
      }
    }
  }

  /** A first piece free of separators is split off on its own. */
  lemma {:induction false} SplitAfterSegment(head: string, tail: string, sep: char)
    requires sep !in head
    ensures Split(head + [sep] + tail, sep) == [head] + Split(tail, sep)
    decreases |head|
  {
    var s := head + [sep] + tail;
    if |head| == 0 {
      assert s == [sep] + tail;
      assert s[1..] == tail;
    } else {
      assert s[1..] == head[1..] + [sep] + tail;
      SplitAfterSegment(head[1..], tail, sep);
      assert [head[0]] + head[1..] == head;
    }
  }

  /** A string without separators splits into itself alone. */
  lemma {:induction false} SplitWithoutSeparator(s: string, sep: char)
    requires sep !in s
    ensures Split(s, sep) == [s]
    decreases |s|
  {
    if |s| > 0 {
      SplitWithoutSeparator(s[1..], sep);
      assert [s[0]] + s[1..] == s;
    }
  }
}
